=== FILE: README.md ===
# air-react-forms: `hasMinLength` and the `useForm` controller contract, in Dafny

This project models two parts of air-react-forms, a form-state library for
React, and proves properties of them.

1. **The `hasMinLength(minLength, errorMessage)` validator factory**
   (`src/validators/hasMinLength.ts`). The validator it returns answers
   `errorMessage` when the field value is falsy, or when the value's trimmed
   string form is shorter than `minLength`. Otherwise it answers `undefined`.
   Lengths are JavaScript's: UTF-16 code units, so a character above U+FFFF
   counts twice.
   - It is modelled as pure functions (`MinLength`).
   - The value type is `FieldValue` (`FieldValues`): strings, integers,
     booleans, `null` and `undefined`, with JavaScript falsiness and
     `toString`.
   - `String.prototype.trim` is modelled over ECMAScript's WhiteSpace and
     LineTerminator characters (`Text`).
   - `undefined` as a result is `Option.None`.
2. **The form controller returned by `useForm`**, as its test suite
   `tests/hooks/useForm.test.js` pins it down. It is modelled as the class
   `UseForm.Form`:
   - `refs` is the name-keyed registry of field refs. `registerFormField`
     and `unregisterFormField` change it in place.
   - `errors` is `formState.errors`: field name → rule name → message.
     `validateField` merges and clears entries in it.
   - `isProduction` stands for `process.env.NODE_ENV === 'production'`.
   - `warnings` is a ghost counter of `logger.warn` calls.
   - `ruleCalls` is a ghost multiset that records every (field, rule)
     invocation.

   A field's element is a separate `Element` object whose `value` the page
   changes between calls, as the suite does at line 329. Rules are total
   functions from a `FieldValue` to a message, where the empty string means
   the rule passes. `UseFormScenarios` replays the suite's test cases against
   fresh forms; each scenario's postcondition is what that test expects.

The main results:
- **`hasMinLength`:**
  - The validator only ever answers `errorMessage` or `undefined`.
  - Falsy values always fail.
  - Passing means being truthy with a trimmed length of at least `minLength`.
  - Only the non-whitespace core of the string form is measured.
  - Passing is monotone in `minLength`.
- **`trim`:**
  - It removes exactly the leading and trailing whitespace.
  - It is idempotent.
  - It gives `""` exactly for blank strings.
- **`validateField`:**
  - After it runs, a field's entry holds a message for a rule exactly when that rule fails on the current value.
  - A rule that passes again loses its old message.
  - Messages under other names are kept.
  - Each rule runs exactly once per pass.
  - Validating twice leaves the errors unchanged.
- **`handleSubmit`** prevents the default once, revalidates every field against its current value (invoking each rule of each field exactly once), and returns `getFormValues()`.

## Model

| member | source | states |
|---|---|---|
| Text.Trim | src/validators/hasMinLength.ts:17 | `trim` never lengthens a string and its result has no leading or trailing whitespace |
| Text.TrimIsSlice | src/validators/hasMinLength.ts:17 | what `trim` keeps is one contiguous slice of the input whose two margins are whitespace only |
| Text.TrimStartPadded | src/validators/hasMinLength.ts:17 | leading whitespace is dropped up to the first non-whitespace character, whatever follows |
| Text.TrimEndPadded | src/validators/hasMinLength.ts:17 | trailing whitespace is dropped back to the last non-whitespace character, whatever precedes |
| Text.TrimPadded | src/validators/hasMinLength.ts:17 | whitespace margin + core without outer whitespace + whitespace margin trims to exactly the core |
| Text.TrimOfTrimmed | src/validators/hasMinLength.ts:17 | a string without leading or trailing whitespace is left unchanged by `trim` |
| Text.TrimIdempotent | src/validators/hasMinLength.ts:17 | trimming twice is trimming once |
| Text.TrimEmptyIffBlank | src/validators/hasMinLength.ts:17 | a string trims to `""` if and only if it is whitespace only |
| Text.Utf16Length | src/validators/hasMinLength.ts:17 | `length` counts UTF-16 code units: at least one and at most two per character |
| Text.Utf16LengthOneUnitEach | src/validators/hasMinLength.ts:17 | `length` equals the number of characters if and only if no character is above U+FFFF |
| Text.Utf16LengthAppend | src/validators/hasMinLength.ts:17 | the `length` of a concatenation is the sum of the parts' lengths |
| Text.Utf16LengthOfTrim | src/validators/hasMinLength.ts:17 | `trim` never increases `length` |
| FieldValues.Falsy | src/validators/hasMinLength.ts:17 | `!value` holds for exactly the falsy values `''`, `0`, `false`, `null` and `undefined` |
| FieldValues.ToString | src/validators/hasMinLength.ts:17 | `value.toString()` (defined except on `null` and `undefined`, where JavaScript throws) is the string itself for a string, is empty only for `''`, and has no surrounding whitespace for an integer or a boolean |
| FieldValues.NatToDecimal | src/validators/hasMinLength.ts:17 | the decimal form of a natural is a non-empty digit string with no leading zero |
| FieldValues.NatToDecimalRoundTrip | src/validators/hasMinLength.ts:17 | reading the decimal form back gives the number again |
| FieldValues.IntToString | src/validators/hasMinLength.ts:17 | for magnitudes below 10^21, the string form of an integer starts with `-` exactly when it is negative, and the rest is the decimal form of its magnitude |
| FieldValues.ToStringTrimmedUnlessString | src/validators/hasMinLength.ts:17 | the string form of an integer or boolean has no surrounding whitespace, so `trim` keeps all of it |
| MinLength.TrimmedLength | src/validators/hasMinLength.ts:17 | `value.toString().trim().length` in UTF-16 code units: at least the number of characters kept by `trim`, at most the `length` of the whole string form, and 0 exactly when that form is blank |
| MinLength.CheckMinLength | src/validators/hasMinLength.ts:16-22 | the result is `errorMessage` or `undefined`, and it is `undefined` if and only if the value is truthy and its trimmed length, in UTF-16 code units, is at least `minLength` |
| MinLength.HasMinLength | src/validators/hasMinLength.ts:16-22 | for every value the curried validator answers only `errorMessage` or `undefined`; falsy values fail; truthy values fail below `minLength` and pass at or above it |
| MinLength.PassesIffCoreLongEnough | src/validators/hasMinLength.ts:17-21 | when a truthy value's string form is whitespace + core + whitespace, the value passes if and only if the core is at least `minLength` UTF-16 code units long |
| MinLength.SurroundingSpacesNotCounted | src/validators/hasMinLength.ts:17-18 | `"  ab  "` fails for a minimum of 3 and passes for a minimum of 2 |
| MinLength.SurrogatePairsCountTwice | src/validators/hasMinLength.ts:17-18 | two characters above U+FFFF measure 4: they pass for a minimum of 4 and fail for 5 |
| MinLength.BlankStringPassesIffNonPositive | src/validators/hasMinLength.ts:17-21 | a non-empty whitespace-only string passes if and only if `minLength <= 0` |
| MinLength.PassingIsMonotone | src/validators/hasMinLength.ts:17 | a value that passes for `m` passes for every `m' <= m` |
| MinLength.DependsOnlyOnTrimmedLength | src/validators/hasMinLength.ts:16-21 | two values with the same falsiness and the same trimmed length get the same answer, so the validator captures nothing beyond its two parameters |
| MinLength.IntegerMeasuredByDigits | src/validators/hasMinLength.ts:17-21 | an integer is measured by its decimal form: 35 passes for 2 and fails for 3, -35 passes for 3 |
| UseForm.RegisterWrapper | tests/hooks/useForm.test.js:21-47 | a name is accepted if and only if it is defined and not whitespace only; an accepted name is kept as given; otherwise the error is a blank name |
| UseForm.MergeErrors | tests/hooks/useForm.test.js:281-334 | after a pass, a rule of the field has an entry if and only if it fails on the value, with its message; names that are not rules of the field keep exactly their earlier entries |
| UseForm.FailingMessages | tests/hooks/useForm.test.js:281-296 | the messages of exactly the rules that fail on the value |
| UseForm.MergeErrorsOwnRules | tests/hooks/useForm.test.js:281-296 | when every earlier message belongs to a rule of the field, a pass leaves exactly the messages of the failing rules |
| UseForm.MergeErrorsAllPass | tests/hooks/useForm.test.js:312-334 | when every rule passes, no message of the field is left |
| UseForm.MergeErrorsNoRules | tests/hooks/useForm.test.js:216-226 | a field without rules keeps its messages as they are |
| UseForm.MergeErrorsIdempotent | tests/hooks/useForm.test.js:281-296 | validating again against an unchanged value changes nothing |
| UseForm.CallsCount | tests/hooks/useForm.test.js:267-279 | one pass invokes each rule of the field exactly once and nothing else |
| UseForm.AllCallsCount | tests/hooks/useForm.test.js:160-176 | validating all fields invokes each rule of each registered field exactly once and nothing else |
| UseForm.RunRules | tests/hooks/useForm.test.js:267-296 | running a field's rules one by one gives the merged messages, and records one invocation of each rule |
| UseForm.SubmitEvent.PreventDefault | tests/hooks/useForm.test.js:149-157 | the default is prevented and one more call is recorded |
| UseForm.Form.constructor | tests/hooks/useForm.test.js:9-13 | a new form has no refs, no errors, no warnings and no rule invocations |
| UseForm.Form.GetFieldsRefs | tests/hooks/useForm.test.js:179-197 | returns the current registry, in which every ref is filed under its own name |
| UseForm.Form.GetFormValues | tests/hooks/useForm.test.js:121-145 | the values have the registry's names as keys and each name's element value; no refs gives no values |
| UseForm.Form.ValidateField | tests/hooks/useForm.test.js:228-334 | an unregistered name invokes no rule, keeps the errors and warns only outside production; a registered name gets its entry created or replaced by the merged messages, with one invocation of each of its rules |
| UseForm.Form.RegisterFormField | tests/hooks/useForm.test.js:57-93 | a nameless ref changes nothing but logs one warning; a named ref is filed under its name (replacing any ref of that name, so the names stay unique) and validated at once |
| UseForm.Form.UnregisterFormField | tests/hooks/useForm.test.js:97-117 | removes exactly the ref of that name and leaves the others; an unknown name changes nothing but warns outside production |
| UseForm.Form.ValidateAll | tests/hooks/useForm.test.js:160-176 | every registered field is validated once against its current value, in any order: the errors are the fields' merged messages and each rule of each field is invoked exactly once; the form values are unchanged |
| UseForm.Form.HandleSubmit | tests/hooks/useForm.test.js:149-176 | `preventDefault` is called exactly once, every field is revalidated with each of its rules invoked exactly once, and the result equals `getFormValues()`, both before and after the call |
| UseFormScenarios.IsRequired | tests/hooks/useForm.test.js:211 | the `isRequired` mock answers `'required'` or `''`, and `''` exactly for a string that is not blank |
| UseFormScenarios.HasLength | tests/hooks/useForm.test.js:212 | the `hasLength` mock answers `'should be 4 chars'` or `''`, and `''` exactly for a string whose trimmed `length` is 4 |
| UseFormScenarios.HasMaxLength | tests/hooks/useForm.test.js:213 | the `hasMaxLength` mock answers its message or `''`, `''` exactly when the trimmed `length` is at most 6, so a string of at most 6 code units always passes |
| UseFormScenarios.RegisterWrapperScenario | tests/hooks/useForm.test.js:21-47 | `'valid-name'` is accepted; undefined, `''` and `'     '` are refused |
| UseFormScenarios.RegisterNewFieldScenario | tests/hooks/useForm.test.js:57-64 | registering a named ref on an empty form gives a registry holding exactly that ref |
| UseFormScenarios.NamelessRefScenario | tests/hooks/useForm.test.js:66-82 | a nameless ref leaves the registry empty and logs exactly one warning |
| UseFormScenarios.ReplaceRefScenario | tests/hooks/useForm.test.js:84-93 | a second ref under the same name replaces the first |
| UseFormScenarios.UnregisterScenario | tests/hooks/useForm.test.js:97-117 | unregistering an unknown name keeps the ref; unregistering its own name empties the registry |
| UseFormScenarios.RegisterPlainField | tests/hooks/useForm.test.js:130 | `registerWrapper(name).registerFormField(ref)` for a non-blank name and a ref without rules: the name is accepted and the ref is filed under it, replacing any earlier ref of that name |
| UseFormScenarios.RegisterFourFields | tests/hooks/useForm.test.js:121-131 | registering the suite's four refs on an empty form makes `getFormValues()` exactly `{firstname: 'john', lastname: 'doe', age: 35, unfilledInput: ''}` |
| UseFormScenarios.FormValuesScenario | tests/hooks/useForm.test.js:121-145 | four registered fields give exactly `{firstname: 'john', lastname: 'doe', age: 35, unfilledInput: ''}`; an empty form gives `{}` |
| UseFormScenarios.SubmitEmptyFormScenario | tests/hooks/useForm.test.js:149-157 | submitting an empty form calls `preventDefault` exactly once and returns `{}` |
| UseFormScenarios.HandleSubmitScenario | tests/hooks/useForm.test.js:160-176 | submitting the four refs of lines 162-167 returns exactly what `getFormValues()` returns afterwards, `{firstname: 'john', lastname: 'doe', age: 35, unfilledInput: ''}` |
| UseFormScenarios.FieldsRefsScenario | tests/hooks/useForm.test.js:179-197 | the registry holds exactly the two refs registered and nothing under `age` |
| UseFormScenarios.NoRulesScenario | tests/hooks/useForm.test.js:216-226 | a field without rules invokes no rule when registered and validated |
| UseFormScenarios.UnreferencedFieldScenario | tests/hooks/useForm.test.js:228-265 | validating an unregistered name keeps the errors, invokes no rule, and warns once outside production and never in production |
| UseFormScenarios.RegisterThenValidate | tests/hooks/useForm.test.js:267-296 | registering then validating leaves the messages of the first pass and invokes every rule of the field twice |
| UseFormScenarios.CallsEachRuleTwiceScenario | tests/hooks/useForm.test.js:267-279 | `isRequired` and `hasLength` are each invoked exactly twice |
| UseFormScenarios.OneRuleOutcome | tests/hooks/useForm.test.js:298-310 | a field with one rule ends with that rule's message alone if it fails, and with an empty entry if it passes |
| UseFormScenarios.TwoRulesOutcome | tests/hooks/useForm.test.js:281-296 | a field with two rules, the second passing, ends with the first rule's message alone if it fails, and with an empty entry otherwise |
| UseFormScenarios.EmptyValueFailsOnlyRequired | tests/hooks/useForm.test.js:294-295 | on `''` the entry is `{isRequired: 'required'}` and holds no `maxLength` message |
| UseFormScenarios.FixedValueClearsRequired | tests/hooks/useForm.test.js:328-333 | once the value is `'abcd'` the earlier `isRequired` message is removed and the entry is empty |
| UseFormScenarios.TwoPassesCallEachRuleTwice | tests/hooks/useForm.test.js:290-292 | two passes over a field's rules invoke each of its rules exactly twice |
| UseFormScenarios.OnlyFailedMessagesScenario | tests/hooks/useForm.test.js:281-296 | registering and validating a field whose value is `''` invokes `isRequired` and `hasMaxLength` twice each, and its entry is `{isRequired: 'required'}` with no `maxLength` message |
| UseFormScenarios.ObsoleteErrorScenario | tests/hooks/useForm.test.js:312-334 | the entry is `{isRequired: 'required'}` while the value is empty, after two invocations each of `isRequired` and `hasMaxLength`; it becomes empty after the value is fixed and validated |
| UseFormScenarios.ErrorsEntryCreatedScenario | tests/hooks/useForm.test.js:298-310 | before registration there is no entry for the field; after registering and validating there is one, even though every rule passes |

## Left out

- The `useForm` hook's own source is not part of this model. The controller's behaviour comes from what its test suite asserts. Where the suite does not pin a behaviour down, the model makes a choice of its own; the lines below list each one.
- Form.HandleSubmit: the suite (lines 149-176) checks only that `preventDefault` is called once and that the result is `getFormValues()`. The model also revalidates every registered field.
- UseForm.MergeErrors: the suite does not say what happens to messages under names that are not rules of the field. The model keeps them, and a passing rule clears only its own message.
- Form.ValidateField: on an unknown name `errors` is left unchanged. The suite (lines 228-265) checks only rule calls and warnings there.
- Form.ValidateField: on an unknown name exactly one warning is logged outside production. The suite (line 248) fixes only the first `logger.warn` call, not how many there are.
- UseForm.RegisterWrapper: an accepted name is returned unchanged. The suite (line 25) checks only that the result's `name` is a string.
- Form.ValidateField: `errors[n]` is always created, possibly empty, because the suite (lines 298-310) expects an entry after validation even when every rule passes. So an entry does not mean that some rule fails.
- Form.UnregisterFormField: an unknown name logs one warning outside production and none in production; the suite (lines 108-117) does not check warnings there. The ref's `errors[name]` entry is kept after the ref is removed, so a removed field's messages stay in `formState.errors`; the suite does not check that either.
- Form.RegisterFormField: the warning for a nameless ref is logged in production as well. The suite (lines 66-82) does not set the environment. Only warnings about unknown names (lines 239-265) are silenced in production.
- Rules are functions of the whole `FieldValue`, not only of strings. The suite's mock rules are applied to strings only, so `UseFormScenarios.TrimmedText` measures non-string values as length 0.
- A ref without a `rules` attribute (line 217) is modelled as a ref with no rules.
- `registerWrapper` returns the `registerFormField` and `unregisterFormField` functions in the source. The model returns only the accepted name; the two operations are the methods of `Form`.
- React re-rendering, hook state updates and `act()` are not modelled. Every operation takes effect at once, in call order.
- `useFieldArray`, `formState` fields other than `errors`, `FormProvider` and the playground form are not modelled. Their source is not part of this model.
- `logger.warn` is a ghost counter of warnings. The message text of a warning is not modelled.
- Jest mocks are not modelled as objects. Rule invocations are recorded in the ghost multiset `ruleCalls`, and `preventDefault` calls in a ghost counter on the event.
- `FieldValue` numbers are unbounded integers. Floating-point values, `NaN`, infinities and their `toString` forms are not modelled. For the same reason `minLength` is an integer.
- FieldValues.IntToString: it agrees with `Number.prototype.toString()` only for magnitudes below 10^21. JavaScript writes larger numbers in exponent notation (`(1e21).toString()` is `"1e+21"`), so `hasMinLength` measures them by that shorter form, while the model measures all their digits.
- `IsWhitespace` is the fixed set of WhiteSpace and LineTerminator code points of the ECMAScript standard (section 12.2 and 12.3 of ECMA-262, with the space separators of Unicode category Zs listed explicitly). A later Unicode version that adds space separators is not followed.
- Strings are sequences of Unicode code points, and `length` is computed from them as UTF-16 code units. Lone surrogates, which a JavaScript string can hold, cannot be represented.
- Purity of `hasMinLength` needs no separate statement: it is a Dafny function, so equal arguments give equal results.

=== FILE: field_value.dfy ===
/**
 * The values a form input can hold, restricted to strings, integers, booleans,
 * `null` and `undefined`, with JavaScript's truthiness and `toString`.
 */
module FieldValues {
  import opened Text

  datatype FieldValue = Str(s: string) | Int(n: int) | Bool(b: bool) | Null | Undefined

  /** The falsy values of JavaScript that a `FieldValue` can be. */
  const FalsyValues: set<FieldValue> := {Str(""), Int(0), Bool(false), Null, Undefined}

  /** `!value`: JavaScript falsiness, decided by the value's own kind. */
  predicate Falsy(v: FieldValue)
    ensures Falsy(v) <==> v in FalsyValues
  {
    match v
    case Str(s) => s == ""
    case Int(n) => n == 0
    case Bool(b) => !b
    case Null => true
    case Undefined => true
  }

  predicate IsDigit(c: char)
  {
    '0' <= c <= '9'
  }

  function DigitChar(d: nat): (c: char)
    requires d < 10
    ensures IsDigit(c) && c as int - '0' as int == d
  {
    ['0', '1', '2', '3', '4', '5', '6', '7', '8', '9'][d]
  }

  /** Decimal notation of a natural number, without leading zeros. */
  function NatToDecimal(n: nat): (r: string)
    ensures |r| >= 1
    ensures forall i :: 0 <= i < |r| ==> IsDigit(r[i])
    ensures |r| > 1 ==> r[0] != '0'
  {
    if n < 10 then [DigitChar(n)] else NatToDecimal(n / 10) + [DigitChar(n % 10)]
  }

  /** The number a digit string denotes in base ten. */
  function DecimalValue(s: string): int
  {
    if s == [] then 0 else 10 * DecimalValue(s[..|s| - 1]) + (s[|s| - 1] as int - '0' as int)
  }

  /** The digits of `NatToDecimal(n)` spell `n` back. */
  lemma {:induction false} NatToDecimalRoundTrip(n: nat)
    ensures DecimalValue(NatToDecimal(n)) == n
  {
    var r := NatToDecimal(n);
    if n >= 10 {
      NatToDecimalRoundTrip(n / 10);
      assert r[..|r| - 1] == NatToDecimal(n / 10);
    }
  }

  /**
   * `Number.prototype.toString()` for an integer whose magnitude is below
   * 10^21: an optional minus sign and its decimal digits. (JavaScript writes
   * larger magnitudes in exponent notation; those are not modelled.)
   */
  function IntToString(n: int): (r: string)
    ensures |r| >= 1
    ensures r[0] == '-' <==> n < 0
    ensures n < 0 ==> r[1..] == NatToDecimal(-n)
    ensures n >= 0 ==> r == NatToDecimal(n)
  {
    if n < 0 then "-" + NatToDecimal(-n) else NatToDecimal(n)
  }

  /**
   * `value.toString()`. On `null` and `undefined` JavaScript throws a
   * TypeError, hence the precondition.
   */
  function ToString(v: FieldValue): (r: string)
    requires !v.Null? && !v.Undefined?
    ensures v.Str? ==> r == v.s
    ensures r == [] <==> v == Str("")
    ensures !v.Str? ==> Trimmed(r)
  {
    match v
    case Str(s) => s
    case Int(n) => IntToString(n)
    case Bool(b) => if b then "true" else "false"
  }

  /** The string form of a number or a boolean has no whitespace, so `trim` keeps all of it. */
  lemma ToStringTrimmedUnlessString(v: FieldValue)
    requires v.Int? || v.Bool?
    ensures Trim(ToString(v)) == ToString(v)
  {
    TrimOfTrimmed(ToString(v));
  }
}

=== FILE: has_min_length.dfy ===
/**
 * The `hasMinLength(minLength, errorMessage)` validator factory: the returned
 * validator fails a value that is falsy or whose trimmed string form is
 * shorter than `minLength`.
 */
module MinLength {
  import opened Wrappers
  import opened Text
  import opened FieldValues

  /** `value.toString().trim().length` for a truthy value, in UTF-16 code units. */
  function TrimmedLength(v: FieldValue): (k: nat)
    requires !Falsy(v)
    ensures |Trim(ToString(v))| <= k <= Utf16Length(ToString(v))
    ensures k == 0 <==> AllWhitespace(ToString(v))
  {
    TrimEmptyIffBlank(ToString(v));
    Utf16LengthOfTrim(ToString(v));
    Utf16Length(Trim(ToString(v)))
  }

  /** The validator returned by the factory, applied to `value`; `None` is `undefined`. */
  function CheckMinLength(minLength: int, errorMessage: string, value: FieldValue): (r: Option<string>)
    ensures r == None || r == Some(errorMessage)
    ensures r == None <==> !Falsy(value) && TrimmedLength(value) >= minLength
  {
    if Falsy(value) || TrimmedLength(value) < minLength then Some(errorMessage) else None
  }

  /**
   * The curried factory. Its validator captures nothing but the two parameters
   * and only ever answers `errorMessage` or `undefined`; a falsy value always fails.
   */
  function HasMinLength(minLength: int, errorMessage: string): (validate: FieldValue -> Option<string>)
    ensures forall v :: validate(v) == None || validate(v) == Some(errorMessage)
    ensures forall v :: Falsy(v) ==> validate(v) == Some(errorMessage)
    ensures forall v :: !Falsy(v) && TrimmedLength(v) < minLength ==> validate(v) == Some(errorMessage)
    ensures forall v :: !Falsy(v) && TrimmedLength(v) >= minLength ==> validate(v) == None
  {
    v => CheckMinLength(minLength, errorMessage, v)
  }

  /**
   * Only the non-whitespace core is measured: a value whose string form is a
   * whitespace margin, a core and a whitespace margin passes exactly when it is
   * truthy and the core is at least `minLength` UTF-16 code units long.
   */
  lemma PassesIffCoreLongEnough(minLength: int, errorMessage: string, value: FieldValue,
                                a: string, core: string, b: string)
    requires !Falsy(value)
    requires ToString(value) == a + core + b
    requires AllWhitespace(a) && AllWhitespace(b) && Trimmed(core)
    ensures HasMinLength(minLength, errorMessage)(value) == None <==> Utf16Length(core) >= minLength
  {
    TrimPadded(a, core, b);
  }

  /** `"  ab  "` is measured as `"ab"`: it fails for a minimum length of 3 and passes for 2. */
  lemma SurroundingSpacesNotCounted(errorMessage: string)
    ensures HasMinLength(3, errorMessage)(Str("  ab  ")) == Some(errorMessage)
    ensures HasMinLength(2, errorMessage)(Str("  ab  ")) == None
  {
    var pad, core := "  ", "ab";
    assert AllWhitespace(pad) by { assert pad[0] == pad[1] == ' '; }
    assert Trimmed(core);
    assert ToString(Str("  ab  ")) == pad + core + pad;
    assert Utf16Length(core) == 2;
    PassesIffCoreLongEnough(3, errorMessage, Str("  ab  "), pad, core, pad);
    PassesIffCoreLongEnough(2, errorMessage, Str("  ab  "), pad, core, pad);
  }

  /**
   * A character above U+FFFF counts as two, as JavaScript's `length` counts
   * it: two emoji pass for a minimum length of 4 and fail for 5.
   */
  lemma SurrogatePairsCountTwice(errorMessage: string)
    ensures HasMinLength(4, errorMessage)(Str("\U{1F600}\U{1F600}")) == None
    ensures HasMinLength(5, errorMessage)(Str("\U{1F600}\U{1F600}")) == Some(errorMessage)
  {
    var emoji: string := ['\U{1F600}'];
    assert Utf16Length(emoji) == 2 by { assert emoji[..0] == []; }
    assert Trimmed(emoji + emoji);
    TrimOfTrimmed(emoji + emoji);
    Utf16LengthAppend(emoji, emoji);
    assert emoji + emoji == "\U{1F600}\U{1F600}";
  }

  /**
   * A non-empty whitespace-only string is truthy but trims to nothing: it
   * passes exactly when `minLength <= 0`.
   */
  lemma BlankStringPassesIffNonPositive(minLength: int, errorMessage: string, s: string)
    requires s != "" && AllWhitespace(s)
    ensures HasMinLength(minLength, errorMessage)(Str(s)) == None <==> minLength <= 0
  {
    TrimEmptyIffBlank(s);
  }

  /** Lowering the minimum never turns a passing value into a failing one. */
  lemma PassingIsMonotone(m: int, m': int, errorMessage: string, value: FieldValue)
    requires m' <= m
    requires HasMinLength(m, errorMessage)(value) == None
    ensures HasMinLength(m', errorMessage)(value) == None
  {
  }

  /**
   * The outcome depends on the value only through its falsiness and its trimmed
   * length: two values that agree on both are judged alike.
   */
  lemma DependsOnlyOnTrimmedLength(minLength: int, errorMessage: string, v: FieldValue, w: FieldValue)
    requires Falsy(v) == Falsy(w)
    requires !Falsy(v) ==> TrimmedLength(v) == TrimmedLength(w)
    ensures HasMinLength(minLength, errorMessage)(v) == HasMinLength(minLength, errorMessage)(w)
  {
  }

  /** A non-zero integer is measured by its decimal digits and sign, e.g. 35 passes for 2 and fails for 3. */
  lemma IntegerMeasuredByDigits(errorMessage: string)
    ensures HasMinLength(2, errorMessage)(Int(35)) == None
    ensures HasMinLength(3, errorMessage)(Int(35)) == Some(errorMessage)
    ensures HasMinLength(3, errorMessage)(Int(-35)) == None
  {
    StringFormsOf35();
    ToStringTrimmedUnlessString(Int(35));
    ToStringTrimmedUnlessString(Int(-35));
    LengthsOf35();
  }

  lemma StringFormsOf35()
    ensures ToString(Int(35)) == "35" && ToString(Int(-35)) == "-35"
  {
    assert NatToDecimal(35) == "35";
  }

  lemma LengthsOf35()
    ensures Utf16Length("35") == 2 && Utf16Length("-35") == 3
  {
    assert "-35"[..2] == "-3" && "-3"[..1] == "-" && "-"[..0] == [];
    assert "35"[..1] == "3" && "3"[..0] == [];
  }
}

=== FILE: text.dfy ===
/**
 * Whitespace, `String.prototype.trim` and JavaScript's string `length` as the
 * library relies on them: `hasMinLength` measures the trimmed string form of a
 * value, and the form controller refuses blank field names.
 */
module Text {

  /** ECMAScript's WhiteSpace and LineTerminator code points: the characters `trim` strips. */
  predicate IsWhitespace(c: char)
  {
    || '\t' <= c <= '\r'                 // tab, line feed, vertical tab, form feed, carriage return
    || c == ' ' || c == '\U{00A0}' || c == '\U{1680}'
    || '\U{2000}' <= c <= '\U{200A}'     // en quad .. hair space
    || c == '\U{2028}' || c == '\U{2029}' // line and paragraph separators
    || c == '\U{202F}' || c == '\U{205F}' || c == '\U{3000}' || c == '\U{FEFF}'
  }

  predicate AllWhitespace(s: string)
  {
    forall i :: 0 <= i < |s| ==> IsWhitespace(s[i])
  }

  /** A string that `trim` leaves alone: empty, or non-whitespace at both ends. */
  predicate Trimmed(s: string)
  {
    s == [] || (!IsWhitespace(s[0]) && !IsWhitespace(s[|s| - 1]))
  }

  /** First step of `Trim`: the suffix left after dropping every leading whitespace character. */
  function TrimStart(s: string): (r: string)
    ensures |r| <= |s| && r == s[|s| - |r|..]
    ensures AllWhitespace(s[..|s| - |r|])
    ensures r == [] || !IsWhitespace(r[0])
    decreases |s|
  {
    if |s| > 0 && IsWhitespace(s[0]) then
      var r := TrimStart(s[1..]);
      assert s[..|s| - |r|] == [s[0]] + s[1..][..|s[1..]| - |r|];
      r
    else s
  }

  /** Second step of `Trim`: the prefix left after dropping every trailing whitespace character. */
  function TrimEnd(s: string): (r: string)
    ensures |r| <= |s| && r == s[..|r|]
    ensures AllWhitespace(s[|r|..])
    ensures r == [] || !IsWhitespace(r[|r| - 1])
    decreases |s|
  {
    if |s| > 0 && IsWhitespace(s[|s| - 1]) then
      var r := TrimEnd(s[..|s| - 1]);
      assert s[|r|..] == s[..|s| - 1][|r|..] + [s[|s| - 1]];
      r
    else s
  }

  /** `trim`: leading whitespace dropped, then trailing whitespace. */
  function Trim(s: string): (r: string)
    ensures |r| <= |s|
    ensures Trimmed(r)
  {
    TrimEnd(TrimStart(s))
  }

  /** What `trim` keeps is a contiguous slice of `s` whose two margins are whitespace only. */
  lemma TrimIsSlice(s: string) returns (i: nat)
    ensures i + |Trim(s)| <= |s|
    ensures Trim(s) == s[i..i + |Trim(s)|]
    ensures AllWhitespace(s[..i]) && AllWhitespace(s[i + |Trim(s)|..])
  {
    var t := TrimStart(s);
    var r := TrimEnd(t);
    i := |s| - |t|;
    SliceOfSuffix(s, i, |r|);
  }

  /** Slicing the suffix `s[i..]` at `m` slices `s` at `i + m`. */
  lemma SliceOfSuffix(s: string, i: nat, m: nat)
    requires i + m <= |s|
    ensures s[i..][..m] == s[i..i + m] && s[i..][m..] == s[i + m..]
  {
  }

  /** Leading whitespace is skipped by `TrimStart`, whatever follows it. */
  lemma {:induction false} TrimStartPadded(a: string, m: string)
    requires AllWhitespace(a)
    requires m == [] || !IsWhitespace(m[0])
    ensures TrimStart(a + m) == m
    decreases |a|
  {
    if a != [] {
      assert (a + m)[1..] == a[1..] + m;
      TrimStartPadded(a[1..], m);
    } else {
      assert a + m == m;
    }
  }

  /** Trailing whitespace is skipped by `TrimEnd`, whatever precedes it. */
  lemma {:induction false} TrimEndPadded(m: string, b: string)
    requires AllWhitespace(b)
    requires m == [] || !IsWhitespace(m[|m| - 1])
    ensures TrimEnd(m + b) == m
    decreases |b|
  {
    if b != [] {
      assert (m + b)[..|m + b| - 1] == m + b[..|b| - 1];
      TrimEndPadded(m, b[..|b| - 1]);
    } else {
      assert m + b == m;
    }
  }

  /**
   * `trim` removes exactly the leading and trailing whitespace: a string made of
   * a whitespace margin, a core that starts and ends with non-whitespace, and a
   * whitespace margin trims to that core.
   */
  lemma TrimPadded(a: string, m: string, b: string)
    requires AllWhitespace(a) && AllWhitespace(b) && Trimmed(m)
    ensures Trim(a + m + b) == m
  {
    if m == [] {
      assert a + m + b == a + b;
      assert AllWhitespace(a + b);
      TrimStartPadded(a + b, []);
      assert a + b + [] == a + b;
    } else {
      assert a + m + b == a + (m + b);
      TrimStartPadded(a, m + b);
      TrimEndPadded(m, b);
    }
  }

  /** A string without leading or trailing whitespace is its own trim. */
  lemma TrimOfTrimmed(s: string)
    requires Trimmed(s)
    ensures Trim(s) == s
  {
    var none: string := [];
    assert AllWhitespace(none);
    TrimPadded(none, s, none);
    assert none + s + none == s;
  }

  /** `trim` is idempotent. */
  lemma TrimIdempotent(s: string)
    ensures Trim(Trim(s)) == Trim(s)
  {
    TrimOfTrimmed(Trim(s));
  }

  /** A string trims to the empty string exactly when it is whitespace only. */
  lemma TrimEmptyIffBlank(s: string)
    ensures Trim(s) == [] <==> AllWhitespace(s)
  {
    if AllWhitespace(s) {
      assert s + [] + [] == s;
      TrimPadded(s, [], []);
    } else {
      var i := TrimIsSlice(s);
    }
  }

  /**
   * A string's `length` in JavaScript: the number of UTF-16 code units, so a
   * character above U+FFFF, stored as a surrogate pair, counts twice.
   */
  function Utf16Length(s: string): (k: nat)
    ensures |s| <= k <= 2 * |s|
  {
    if s == [] then 0
    else Utf16Length(s[..|s| - 1]) + (if s[|s| - 1] <= '\U{FFFF}' then 1 else 2)
  }

  /** Every character counts once exactly when none lies above U+FFFF. */
  lemma {:induction false} Utf16LengthOneUnitEach(s: string)
    ensures Utf16Length(s) == |s| <==> forall i :: 0 <= i < |s| ==> s[i] <= '\U{FFFF}'
  {
    if s != [] {
      var init := s[..|s| - 1];
      Utf16LengthOneUnitEach(init);
      assert forall i :: 0 <= i < |init| ==> init[i] == s[i];
    }
  }

  /** The code units of a concatenation are those of its parts. */
  lemma {:induction false} Utf16LengthAppend(a: string, b: string)
    ensures Utf16Length(a + b) == Utf16Length(a) + Utf16Length(b)
    decreases |b|
  {
    if b == [] {
      assert a + b == a;
    } else {
      assert (a + b)[..|a + b| - 1] == a + b[..|b| - 1];
      Utf16LengthAppend(a, b[..|b| - 1]);
    }
  }

  /** A slice has no more code units than the whole string. */
  lemma Utf16LengthOfSlice(s: string, i: nat, j: nat)
    requires i <= j <= |s|
    ensures Utf16Length(s[i..j]) <= Utf16Length(s)
  {
    assert s[..j] == s[..i] + s[i..j];
    assert s == s[..j] + s[j..];
    Utf16LengthAppend(s[..j], s[j..]);
    Utf16LengthAppend(s[..i], s[i..j]);
  }

  /** `trim` never lengthens a string, counted in code units either. */
  lemma Utf16LengthOfTrim(s: string)
    ensures Utf16Length(Trim(s)) <= Utf16Length(s)
  {
    var t := TrimStart(s);
    var r := TrimEnd(t);
    assert s[|s| - |t|..|s|] == t;
    assert t[0..|r|] == r;
    Utf16LengthOfSlice(s, |s| - |t|, |s|);
    Utf16LengthOfSlice(t, 0, |r|);
  }
}

=== FILE: use_form.dfy ===
/**
 * The form controller returned by `useForm`, as its test suite pins it down:
 * a name-keyed registry of field refs that `registerFormField` and
 * `unregisterFormField` change in place, the values derived from it,
 * `handleSubmit`, and `validateField`, which merges and clears per-rule error
 * messages in `formState.errors`.
 */
module UseForm {
  import opened Wrappers
  import opened Text
  import opened FieldValues

  /** A validation rule: the error message for a value, the empty string when the rule passes. */
  type Rule = FieldValue -> string

  /** The input element a ref points to; the page changes its value in place. */
  class Element {
    var value: FieldValue

    constructor (value: FieldValue)
      ensures this.value == value
    {
      this.value := value;
    }
  }

  /** A field ref: its name (possibly missing), its named rules and its element. */
  datatype FieldRef = FieldRef(name: Option<string>, rules: map<string, Rule>, element: Element)

  /** What `registerWrapper` hands to an input: the accepted field name. */
  datatype Registration = Registration(name: string)

  datatype FormError = BlankFieldName

  /** The submit event; the ghost counter records calls to `preventDefault`. */
  class SubmitEvent {
    var defaultPrevented: bool
    ghost var preventDefaultCalls: nat

    constructor ()
      ensures !defaultPrevented && preventDefaultCalls == 0
    {
      defaultPrevented := false;
      preventDefaultCalls := 0;
    }

    method PreventDefault()
      modifies this
      ensures defaultPrevented
      ensures preventDefaultCalls == old(preventDefaultCalls) + 1
    {
      defaultPrevented := true;
      preventDefaultCalls := preventDefaultCalls + 1;
    }
  }

  /**
   * `registerWrapper(name)`: an undefined, empty or whitespace-only name is a
   * usage error (the source throws); any other name is accepted as it is.
   */
  function RegisterWrapper(name: Option<string>): (r: Result<Registration, FormError>)
    ensures r.Ok? <==> name.Some? && !AllWhitespace(name.value)
    ensures r.Ok? ==> r.value.name == name.value
    ensures r.Err? ==> r.error == BlankFieldName
  {
    if name.None? then Err(BlankFieldName)
    else
      TrimEmptyIffBlank(name.value);
      if Trim(name.value) == "" then Err(BlankFieldName) else Ok(Registration(name.value))
  }

  /** The error messages recorded for one field, empty when it has none yet. */
  function FieldErrors(errors: map<string, map<string, string>>, name: string): map<string, string>
  {
    if name in errors then errors[name] else map[]
  }

  /**
   * One validation pass over a field: every rule that fails on `value` sets its
   * message, every rule that passes clears its earlier message, and messages
   * under names that are not rules of the field are kept.
   */
  function MergeErrors(prev: map<string, string>, rules: map<string, Rule>, value: FieldValue): (r: map<string, string>)
    ensures forall rn :: rn in rules ==> (rn in r <==> rules[rn](value) != "")
    ensures forall rn :: rn in rules && rn in r ==> r[rn] == rules[rn](value)
    ensures forall rn :: rn !in rules ==> (rn in r <==> rn in prev)
    ensures forall rn :: rn !in rules && rn in prev ==> r[rn] == prev[rn]
  {
    map rn | rn in prev.Keys + rules.Keys && (rn in rules ==> rules[rn](value) != "")
      :: if rn in rules then rules[rn](value) else prev[rn]
  }

  /** The messages of the rules that fail on `value`, and nothing else. */
  function FailingMessages(rules: map<string, Rule>, value: FieldValue): (r: map<string, string>)
    ensures r.Keys <= rules.Keys
    ensures forall rn :: rn in rules ==> (rn in r <==> rules[rn](value) != "")
    ensures forall rn :: rn in r ==> r[rn] == rules[rn](value)
  {
    map rn | rn in rules && rules[rn](value) != "" :: rules[rn](value)
  }

  /**
   * When every earlier message belongs to a rule of the field, validation
   * leaves exactly the messages of the rules that currently fail: an entry
   * exists for a rule iff it fails, and a rule that passes again loses its entry.
   */
  lemma MergeErrorsOwnRules(prev: map<string, string>, rules: map<string, Rule>, value: FieldValue)
    requires prev.Keys <= rules.Keys
    ensures MergeErrors(prev, rules, value) == FailingMessages(rules, value)
  {
    var m, f := MergeErrors(prev, rules, value), FailingMessages(rules, value);
    assert m.Keys == f.Keys;
  }

  /** Once every rule of the field passes, no message of the field is left. */
  lemma MergeErrorsAllPass(prev: map<string, string>, rules: map<string, Rule>, value: FieldValue)
    requires prev.Keys <= rules.Keys
    requires forall rn :: rn in rules ==> rules[rn](value) == ""
    ensures MergeErrors(prev, rules, value) == map[]
  {
    MergeErrorsOwnRules(prev, rules, value);
    assert FailingMessages(rules, value).Keys == {};
  }

  /** A field without rules keeps its messages as they are. */
  lemma MergeErrorsNoRules(prev: map<string, string>, value: FieldValue)
    ensures MergeErrors(prev, map[], value) == prev
  {
    var r := MergeErrors(prev, map[], value);
    assert r.Keys == prev.Keys;
  }

  /** Validating again against an unchanged value changes nothing. */
  lemma MergeErrorsIdempotent(prev: map<string, string>, rules: map<string, Rule>, value: FieldValue)
    ensures MergeErrors(MergeErrors(prev, rules, value), rules, value) == MergeErrors(prev, rules, value)
  {
    var once := MergeErrors(prev, rules, value);
    var twice := MergeErrors(once, rules, value);
    assert twice.Keys == once.Keys;
  }

  /** Running one more rule `rn` updates the merged messages under `rn` alone. */
  lemma MergeErrorsStep(prev: map<string, string>, done: map<string, Rule>, rn: string, rule: Rule, value: FieldValue)
    ensures MergeErrors(prev, done[rn := rule], value)
         == if rule(value) != "" then MergeErrors(prev, done, value)[rn := rule(value)]
            else MergeErrors(prev, done, value) - {rn}
  {
  }

  /** The errors after validating each field in `names` once, starting from `prev`, with the given current values. */
  function Revalidated(prev: map<string, map<string, string>>, refs: map<string, FieldRef>,
                       values: map<string, FieldValue>, names: set<string>): map<string, map<string, string>>
    requires names <= refs.Keys && names <= values.Keys
  {
    map n | n in prev.Keys + names
      :: if n in names then MergeErrors(FieldErrors(prev, n), refs[n].rules, values[n]) else prev[n]
  }

  /** Validating one more field `n` updates the errors under `n` alone, and in any order. */
  lemma RevalidatedStep(prev: map<string, map<string, string>>, refs: map<string, FieldRef>,
                        values: map<string, FieldValue>, names: set<string>, n: string)
    requires names <= refs.Keys && names <= values.Keys
    requires n in refs && n in values && n !in names
    ensures Revalidated(prev, refs, values, names + {n})
         == Revalidated(prev, refs, values, names)[n :=
              MergeErrors(FieldErrors(Revalidated(prev, refs, values, names), n), refs[n].rules, values[n])]
  {
  }

  /** One invocation of each rule in `ruleNames` of field `name`. */
  ghost function Calls(name: string, ruleNames: set<string>): multiset<(string, string)>
  {
    multiset(set rn | rn in ruleNames :: (name, rn))
  }

  /** `Calls` holds each (field, rule) pair of the field's rules exactly once, and nothing else. */
  lemma CallsCount(name: string, ruleNames: set<string>, call: (string, string))
    ensures Calls(name, ruleNames)[call] == if call.0 == name && call.1 in ruleNames then 1 else 0
  {
    if call.0 == name && call.1 in ruleNames {
      assert call == (name, call.1);
    }
  }

  lemma CallsStep(name: string, done: set<string>, rn: string)
    requires rn !in done
    ensures Calls(name, done + {rn}) == Calls(name, done) + multiset{(name, rn)}
  {
    forall call
      ensures Calls(name, done + {rn})[call] == (Calls(name, done) + multiset{(name, rn)})[call]
    {
      CallsCount(name, done + {rn}, call);
      CallsCount(name, done, call);
    }
  }

  /** One invocation of each rule of each field in `names`. */
  ghost function AllCalls(refs: map<string, FieldRef>, names: set<string>): multiset<(string, string)>
    requires names <= refs.Keys
  {
    multiset(set n, rn | n in names && rn in refs[n].rules.Keys :: (n, rn))
  }

  /** `AllCalls` holds each (field, rule) pair of the fields in `names` exactly once, and nothing else. */
  lemma AllCallsCount(refs: map<string, FieldRef>, names: set<string>, call: (string, string))
    requires names <= refs.Keys
    ensures AllCalls(refs, names)[call] == if call.0 in names && call.1 in refs[call.0].rules then 1 else 0
  {
    if call.0 in names && call.1 in refs[call.0].rules {
      assert call == (call.0, call.1);
    }
  }

  /** Validating one more field `n` adds one invocation of each of its rules. */
  lemma AllCallsStep(refs: map<string, FieldRef>, names: set<string>, n: string)
    requires names <= refs.Keys && n in refs && n !in names
    ensures AllCalls(refs, names + {n}) == AllCalls(refs, names) + Calls(n, refs[n].rules.Keys)
  {
    forall call
      ensures AllCalls(refs, names + {n})[call] == (AllCalls(refs, names) + Calls(n, refs[n].rules.Keys))[call]
    {
      AllCallsCount(refs, names + {n}, call);
      AllCallsCount(refs, names, call);
      CallsCount(n, refs[n].rules.Keys, call);
    }
  }

  /** Taking `n` off the pending names adds it to the names done. */
  lemma PendingStep(all: set<string>, pending: set<string>, n: string)
    requires n in pending && pending <= all
    ensures all - (pending - {n}) == (all - pending) + {n}
  {
  }

  /** Invocations so far: after `done`, one more field `n` extends them to `done + {n}`. */
  lemma AllCallsAfter(start: multiset<(string, string)>, refs: map<string, FieldRef>, done: set<string>, n: string,
                      before: multiset<(string, string)>, after: multiset<(string, string)>)
    requires done <= refs.Keys && n in refs && n !in done
    requires before == start + AllCalls(refs, done)
    requires after == before + Calls(n, refs[n].rules.Keys)
    ensures after == start + AllCalls(refs, done + {n})
  {
    AllCallsStep(refs, done, n);
  }

  /**
   * Runs every rule of field `name` once on `value`, folding the outcomes into
   * the earlier messages `prev`; `calls` records the invocations.
   */
  method RunRules(name: string, rules: map<string, Rule>, value: FieldValue, prev: map<string, string>)
    returns (fieldErrors: map<string, string>, ghost calls: multiset<(string, string)>)
    ensures fieldErrors == MergeErrors(prev, rules, value)
    ensures calls == Calls(name, rules.Keys)
  {
    fieldErrors := prev;
    calls := multiset{};
    var pending := rules.Keys;
    while pending != {}
      invariant pending <= rules.Keys
      invariant fieldErrors == MergeErrors(prev, rules - pending, value)
      invariant calls == Calls(name, rules.Keys - pending)
      decreases pending
    {
      var rn :| rn in pending;
      var message := rules[rn](value);
      calls := calls + multiset{(name, rn)};
      if message != "" {
        fieldErrors := fieldErrors[rn := message];
      } else {
        fieldErrors := fieldErrors - {rn};
      }
      assert rules - (pending - {rn}) == (rules - pending)[rn := rules[rn]];
      MergeErrorsStep(prev, rules - pending, rn, rules[rn], value);
      CallsStep(name, rules.Keys - pending, rn);
      assert rules.Keys - (pending - {rn}) == rules.Keys - pending + {rn};
      pending := pending - {rn};
    }
    assert rules - pending == rules;
  }

  class Form {
    /** The registry returned by `getFieldsRefs`. */
    var refs: map<string, FieldRef>
    /** `formState.errors`: field name to rule name to message. */
    var errors: map<string, map<string, string>>
    /** Whether the environment is the production one, which silences warnings. */
    var isProduction: bool
    /** Number of warnings logged so far. */
    ghost var warnings: nat
    /** Every (field name, rule name) invocation of a rule so far. */
    ghost var ruleCalls: multiset<(string, string)>

    /** Every ref is filed under its own name, so a name occurs at most once. */
    ghost predicate Valid()
      reads this
    {
      forall n :: n in refs ==> refs[n].name == Some(n)
    }

    ghost function Elements(): set<Element>
      reads this
    {
      set n | n in refs :: refs[n].element
    }

    constructor (isProduction: bool)
      ensures Valid()
      ensures refs == map[] && errors == map[] && this.isProduction == isProduction
      ensures warnings == 0 && ruleCalls == multiset{}
    {
      refs := map[];
      errors := map[];
      this.isProduction := isProduction;
      warnings := 0;
      ruleCalls := multiset{};
    }

    /** `getFieldsRefs()`: the current registry, in which every ref is filed under its own name. */
    method GetFieldsRefs() returns (r: map<string, FieldRef>)
      requires Valid()
      ensures r == refs
      ensures forall n :: n in r ==> r[n].name == Some(n)
    {
      r := refs;
    }

    /** `getFormValues()`: every registered name mapped to its element's current value. */
    function GetFormValues(): (values: map<string, FieldValue>)
      reads this, Elements()
      ensures values.Keys == refs.Keys
      ensures forall n :: n in refs ==> values[n] == refs[n].element.value
    {
      map n | n in refs :: refs[n].element.value
    }

    /**
     * `validateField(name)`: on an unregistered name nothing is invoked and
     * nothing changes but a warning outside production; otherwise each rule of
     * the field runs once on its current value and `errors[name]` becomes the
     * merge of its previous messages with the outcomes.
     */
    method ValidateField(name: string)
      requires Valid()
      modifies this
      ensures Valid() && refs == old(refs) && isProduction == old(isProduction)
      ensures name !in refs ==> errors == old(errors) && ruleCalls == old(ruleCalls)
      ensures name !in refs ==> warnings == old(warnings) + (if isProduction then 0 else 1)
      ensures name in refs ==> warnings == old(warnings)
      ensures name in refs ==> errors == old(errors)[name :=
        MergeErrors(FieldErrors(old(errors), name), refs[name].rules, refs[name].element.value)]
      ensures name in refs ==> ruleCalls == old(ruleCalls) + Calls(name, refs[name].rules.Keys)
    {
      if name !in refs {
        if !isProduction {
          warnings := warnings + 1;
        }
        return;
      }
      var ref := refs[name];
      var fieldErrors, calls := RunRules(name, ref.rules, ref.element.value, FieldErrors(errors, name));
      ruleCalls := ruleCalls + calls;
      errors := errors[name := fieldErrors];
    }

    /**
     * `registerFormField(ref)`: a ref without a name is ignored with one
     * warning; otherwise the ref is filed under its name, replacing any ref of
     * that name, and validated at once.
     */
    method RegisterFormField(ref: FieldRef)
      requires Valid()
      modifies this
      ensures Valid() && isProduction == old(isProduction)
      ensures ref.name.None? ==> refs == old(refs) && errors == old(errors)
      ensures ref.name.None? ==> warnings == old(warnings) + 1 && ruleCalls == old(ruleCalls)
      ensures ref.name.Some? ==> refs == old(refs)[ref.name.value := ref] && warnings == old(warnings)
      ensures ref.name.Some? ==> refs.Keys == old(refs).Keys + {ref.name.value}
      ensures ref.name.Some? ==> errors == old(errors)[ref.name.value :=
        MergeErrors(FieldErrors(old(errors), ref.name.value), ref.rules, ref.element.value)]
      ensures ref.name.Some? ==> ruleCalls == old(ruleCalls) + Calls(ref.name.value, ref.rules.Keys)
    {
      if ref.name.None? {
        warnings := warnings + 1;
        return;
      }
      refs := refs[ref.name.value := ref];
      ValidateField(ref.name.value);
    }

    /**
     * `unregisterFormField(name)`: the ref of that name leaves the registry;
     * an unknown name changes nothing but a warning outside production.
     */
    method UnregisterFormField(name: string)
      requires Valid()
      modifies this
      ensures Valid() && isProduction == old(isProduction)
      ensures refs == old(refs) - {name}
      ensures errors == old(errors) && ruleCalls == old(ruleCalls)
      ensures warnings == old(warnings) + (if name !in old(refs) && !isProduction then 1 else 0)
    {
      if name !in refs && !isProduction {
        warnings := warnings + 1;
      }
      refs := refs - {name};
    }

    /**
     * Validates every registered field once, each against its current value:
     * each rule of each field is invoked exactly once.
     */
    method ValidateAll()
      requires Valid()
      modifies this
      ensures Valid() && refs == old(refs) && isProduction == old(isProduction)
      ensures warnings == old(warnings)
      ensures errors == Revalidated(old(errors), refs, GetFormValues(), refs.Keys)
      ensures ruleCalls == old(ruleCalls) + AllCalls(refs, refs.Keys)
      ensures GetFormValues() == old(GetFormValues())
    {
      ghost var current := GetFormValues();
      var pending := refs.Keys;
      ghost var done: set<string> := {};
      while pending != {}
        invariant pending <= refs.Keys && done == refs.Keys - pending
        invariant Valid() && refs == old(refs) && isProduction == old(isProduction)
        invariant warnings == old(warnings)
        invariant GetFormValues() == current
        invariant errors == Revalidated(old(errors), refs, current, done)
        invariant ruleCalls == old(ruleCalls) + AllCalls(refs, done)
        decreases pending
      {
        var name :| name in pending;
        ValidateNext(name, old(errors), old(ruleCalls), current, done);
        PendingStep(refs.Keys, pending, name);
        pending := pending - {name};
        done := done + {name};
      }
      assert done == refs.Keys;
    }

    /**
     * One step of `ValidateAll`: validating field `name` after the fields in
     * `done` extends the pass from `done` to `done + {name}`.
     */
    method ValidateNext(name: string, ghost start: map<string, map<string, string>>,
                        ghost startCalls: multiset<(string, string)>, ghost current: map<string, FieldValue>,
                        ghost done: set<string>)
      requires Valid() && done <= refs.Keys && name in refs && name !in done
      requires current == GetFormValues()
      requires errors == Revalidated(start, refs, current, done)
      requires ruleCalls == startCalls + AllCalls(refs, done)
      modifies this
      ensures Valid() && refs == old(refs) && isProduction == old(isProduction)
      ensures warnings == old(warnings) && GetFormValues() == current
      ensures errors == Revalidated(start, refs, current, done + {name})
      ensures ruleCalls == startCalls + AllCalls(refs, done + {name})
    {
      ghost var before := errors;
      ghost var callsBefore := ruleCalls;
      assert refs[name].element.value == current[name];
      ValidateField(name);
      assert errors == before[name := MergeErrors(FieldErrors(before, name), refs[name].rules, current[name])];
      RevalidatedStep(start, refs, current, done, name);
      AllCallsAfter(startCalls, refs, done, name, callsBefore, ruleCalls);
    }

    /**
     * `handleSubmit(event)`: prevents the default submission once, validates
     * every registered field, and returns the form values whatever their
     * validity.
     */
    method HandleSubmit(event: SubmitEvent) returns (values: map<string, FieldValue>)
      requires Valid()
      modifies this, event
      ensures Valid() && refs == old(refs) && isProduction == old(isProduction)
      ensures warnings == old(warnings)
      ensures event.preventDefaultCalls == old(event.preventDefaultCalls) + 1 && event.defaultPrevented
      ensures errors == Revalidated(old(errors), refs, GetFormValues(), refs.Keys)
      ensures ruleCalls == old(ruleCalls) + AllCalls(refs, refs.Keys)
      ensures values == GetFormValues() && values == old(GetFormValues())
    {
      event.PreventDefault();
      ValidateAll();
      values := GetFormValues();
    }
  }
}

=== FILE: use_form_scenarios.dfy ===
/**
 * The scenarios of the `useForm` test suite, each run against a fresh form as
 * a client of `UseForm.Form`; their postconditions are the suite's expectations.
 */
module UseFormScenarios {
  import opened Wrappers
  import opened Text
  import opened FieldValues
  import opened UseForm

  /** `value.trim().length` of a string value; the suite applies its mock rules to strings only. */
  function TrimmedText(v: FieldValue): nat
  {
    match v
    case Str(s) => Utf16Length(Trim(s))
    case _ => 0
  }

  /** The suite's `isRequired` mock: it passes exactly the strings that are not blank. */
  function IsRequired(v: FieldValue): (message: string)
    ensures message == "" || message == "required"
    ensures message == "" <==> v.Str? && !AllWhitespace(v.s)
  {
    match v
    case Str(s) =>
      TrimEmptyIffBlank(s);
      if TrimmedText(v) == 0 then "required" else ""
    case _ => "required"
  }

  /** The suite's `hasLength` mock: it passes exactly the strings whose trimmed length is 4. */
  function HasLength(v: FieldValue): (message: string)
    ensures message == "" || message == "should be 4 chars"
    ensures message == "" <==> v.Str? && Utf16Length(Trim(v.s)) == 4
  {
    if TrimmedText(v) != 4 then "should be 4 chars" else ""
  }

  /** The suite's `hasMaxLength` mock: a string of at most 6 code units always passes, trimmed or not. */
  function HasMaxLength(v: FieldValue): (message: string)
    ensures message == "" || message == "must be less than 6 characters"
    ensures message == "" <==> TrimmedText(v) <= 6
    ensures v.Str? && Utf16Length(v.s) <= 6 ==> message == ""
  {
    match v
    case Str(s) =>
      Utf16LengthOfTrim(s);
      if TrimmedText(v) > 6 then "must be less than 6 characters" else ""
    case _ => ""
  }

  /** A word without surrounding whitespace and outside the astral planes is measured by its characters. */
  lemma TrimmedTextOfWord(s: string)
    requires s != "" && !IsWhitespace(s[0]) && !IsWhitespace(s[|s| - 1])
    requires forall i :: 0 <= i < |s| ==> s[i] <= '\U{FFFF}'
    ensures TrimmedText(Str(s)) == |s|
  {
    TrimOfTrimmed(s);
    Utf16LengthOneUnitEach(s);
  }

  /**
   * The suite's `registerWrapper(ref.name).registerFormField(ref)` for a ref
   * without rules: the name is accepted and the ref is filed under it.
   */
  method RegisterPlainField(form: Form, name: string, element: Element)
    requires form.Valid() && !AllWhitespace(name)
    modifies form
    ensures form.Valid() && form.isProduction == old(form.isProduction)
    ensures form.refs == old(form.refs)[name := FieldRef(Some(name), map[], element)]
  {
    var registration := RegisterWrapper(Some(name));
    assert registration == Ok(Registration(name));
    form.RegisterFormField(FieldRef(Some(registration.value.name), map[], element));
  }

  /** The field names the suite registers are not blank. */
  lemma SuiteNamesNotBlank()
    ensures !AllWhitespace("firstname") && !AllWhitespace("lastname")
    ensures !AllWhitespace("age") && !AllWhitespace("unfilledInput")
  {
    assert !IsWhitespace("firstname"[0]) && !IsWhitespace("lastname"[0]);
    assert !IsWhitespace("age"[0]) && !IsWhitespace("unfilledInput"[0]);
  }

  /** A valid name is accepted as it is; undefined, empty and blank names are refused. */
  method RegisterWrapperScenario() returns (valid: Result<Registration, FormError>,
                                            undef: Result<Registration, FormError>,
                                            empty: Result<Registration, FormError>,
                                            blank: Result<Registration, FormError>)
    ensures valid == Ok(Registration("valid-name"))
    ensures undef.Err? && empty.Err? && blank.Err?
  {
    valid := RegisterWrapper(Some("valid-name"));
    undef := RegisterWrapper(None);
    empty := RegisterWrapper(Some(""));
    blank := RegisterWrapper(Some("     "));
  }

  /** Registering a named ref on an empty form files exactly that ref under its name. */
  method RegisterNewFieldScenario(ref: FieldRef) returns (registry: map<string, FieldRef>)
    requires ref.name.Some?
    ensures registry == map[ref.name.value := ref]
  {
    var form := new Form(false);
    form.RegisterFormField(ref);
    registry := form.GetFieldsRefs();
  }

  /** A ref without a name leaves the registry empty and logs exactly one warning. */
  method NamelessRefScenario(rules: map<string, Rule>, element: Element)
    returns (registry: map<string, FieldRef>, ghost warnings: nat)
    ensures registry == map[]
    ensures warnings == 1
  {
    var form := new Form(false);
    form.RegisterFormField(FieldRef(None, rules, element));
    registry := form.GetFieldsRefs();
    warnings := form.warnings;
  }

  /** Registering a second ref under the same name replaces the first one. */
  method ReplaceRefScenario(first: FieldRef, second: FieldRef) returns (registry: map<string, FieldRef>)
    requires first.name.Some? && second.name == first.name
    ensures registry == map[first.name.value := second]
  {
    var form := new Form(false);
    form.RegisterFormField(first);
    form.RegisterFormField(second);
    registry := form.GetFieldsRefs();
  }

  /** Unregistering an unknown name keeps the ref; unregistering its own name removes it. */
  method UnregisterScenario(ref: FieldRef, unknown: string)
    returns (afterUnknown: map<string, FieldRef>, afterKnown: map<string, FieldRef>)
    requires ref.name.Some? && unknown != ref.name.value
    ensures afterUnknown == map[ref.name.value := ref]
    ensures afterKnown == map[]
  {
    var form := new Form(false);
    form.RegisterFormField(ref);
    form.UnregisterFormField(unknown);
    afterUnknown := form.GetFieldsRefs();
    form.UnregisterFormField(ref.name.value);
    afterKnown := form.GetFieldsRefs();
  }

  /** The registry holds exactly the refs registered, and nothing under a name never registered. */
  method FieldsRefsScenario(first: FieldRef, second: FieldRef) returns (registry: map<string, FieldRef>)
    requires first.name == Some("firstname") && second.name == Some("lastname")
    ensures registry == map["firstname" := first, "lastname" := second]
    ensures "age" !in registry
  {
    var form := new Form(false);
    form.RegisterFormField(first);
    form.RegisterFormField(second);
    registry := form.GetFieldsRefs();
  }

  /** The values of the four refs the suite registers for `getFormValues` and `handleSubmit`. */
  const SuiteFormValues: map<string, FieldValue> :=
    map["firstname" := Str("john"), "lastname" := Str("doe"), "age" := Int(35), "unfilledInput" := Str("")]

  /** Registers the suite's four rule-less refs on an empty form, each through `registerWrapper`. */
  method RegisterFourFields(form: Form)
    requires form.Valid() && form.refs == map[]
    modifies form
    ensures form.Valid() && form.isProduction == old(form.isProduction)
    ensures form.GetFormValues() == SuiteFormValues
  {
    SuiteNamesNotBlank();
    var first := new Element(Str("john"));
    var last := new Element(Str("doe"));
    var age := new Element(Int(35));
    var unfilled := new Element(Str(""));
    RegisterPlainField(form, "firstname", first);
    RegisterPlainField(form, "lastname", last);
    RegisterPlainField(form, "age", age);
    RegisterPlainField(form, "unfilledInput", unfilled);
    assert form.refs.Keys == {"firstname", "lastname", "age", "unfilledInput"};
    assert first.value == Str("john") && last.value == Str("doe");
    assert age.value == Int(35) && unfilled.value == Str("");
    var values := form.GetFormValues();
    assert values.Keys == {"firstname", "lastname", "age", "unfilledInput"};
    assert values["firstname"] == first.value && values["lastname"] == last.value;
    assert values["age"] == age.value && values["unfilledInput"] == unfilled.value;
    FourValues(values);
  }

  /** Four registered fields give their four values; an empty form gives none. */
  method FormValuesScenario() returns (values: map<string, FieldValue>, emptyValues: map<string, FieldValue>)
    ensures values == map["firstname" := Str("john"), "lastname" := Str("doe"),
                          "age" := Int(35), "unfilledInput" := Str("")]
    ensures emptyValues == map[]
  {
    var empty := new Form(false);
    emptyValues := empty.GetFormValues();
    var form := new Form(false);
    RegisterFourFields(form);
    values := form.GetFormValues();
  }

  lemma FourValues(values: map<string, FieldValue>)
    requires values.Keys == {"firstname", "lastname", "age", "unfilledInput"}
    requires values["firstname"] == Str("john") && values["lastname"] == Str("doe")
    requires values["age"] == Int(35) && values["unfilledInput"] == Str("")
    ensures values == SuiteFormValues
  {
  }

  /** Submitting an empty form calls `preventDefault` exactly once and returns no values. */
  method SubmitEmptyFormScenario() returns (ghost preventDefaultCalls: nat, submitted: map<string, FieldValue>)
    ensures preventDefaultCalls == 1
    ensures submitted == map[]
  {
    var form := new Form(false);
    var event := new SubmitEvent();
    submitted := form.HandleSubmit(event);
    preventDefaultCalls := event.preventDefaultCalls;
  }

  /** Submitting the four registered refs returns what `getFormValues` returns afterwards. */
  method HandleSubmitScenario() returns (submitted: map<string, FieldValue>, afterwards: map<string, FieldValue>)
    ensures submitted == afterwards
    ensures submitted == map["firstname" := Str("john"), "lastname" := Str("doe"),
                             "age" := Int(35), "unfilledInput" := Str("")]
  {
    var form := new Form(false);
    RegisterFourFields(form);
    var event := new SubmitEvent();
    submitted := form.HandleSubmit(event);
    afterwards := form.GetFormValues();
  }

  /**
   * Validating an unregistered name invokes no rule and leaves the errors
   * alone; it warns once outside production and never in production.
   */
  method UnreferencedFieldScenario(isProduction: bool)
    returns (errors: map<string, map<string, string>>, ghost warnings: nat, ghost calls: nat)
    ensures errors == map["dummy_field" := map["isRequired" := "required"]]
    ensures warnings == if isProduction then 0 else 1
    ensures calls == 0
  {
    var rules := map["isRequired" := IsRequired];
    EmptyValueFailsLoneRequired(rules);
    var form := new Form(isProduction);
    var element := new Element(Str(""));
    form.RegisterFormField(FieldRef(Some("dummy_field"), rules, element));
    assert form.errors == map["dummy_field" := map["isRequired" := "required"]];
    ghost var callsBefore := form.ruleCalls;
    form.ValidateField("unreference_field");
    errors := form.errors;
    warnings := form.warnings;
    calls := |form.ruleCalls - callsBefore|;
  }

  /**
   * Registers a named field and validates it once more, as the tests do: the
   * second pass leaves the messages of the first in place and runs every rule
   * of the field a second time.
   */
  method RegisterThenValidate(form: Form, name: string, rules: map<string, Rule>, element: Element)
    requires form.Valid()
    modifies form
    ensures form.Valid() && form.isProduction == old(form.isProduction) && form.warnings == old(form.warnings)
    ensures form.refs == old(form.refs)[name := FieldRef(Some(name), rules, element)]
    ensures form.errors == old(form.errors)[name := MergeErrors(FieldErrors(old(form.errors), name), rules, element.value)]
    ensures form.ruleCalls == old(form.ruleCalls) + Calls(name, rules.Keys) + Calls(name, rules.Keys)
  {
    form.RegisterFormField(FieldRef(Some(name), rules, element));
    ghost var first := form.errors[name];
    form.ValidateField(name);
    MergeErrorsIdempotent(FieldErrors(old(form.errors), name), rules, element.value);
    assert FieldErrors(form.errors, name) == MergeErrors(first, rules, element.value);
  }

  /** A field without rules invokes no rule, however often it is validated, and keeps an empty entry. */
  method NoRulesScenario() returns (ghost calls: nat, entry: map<string, string>)
    ensures calls == 0
    ensures entry == map[]
  {
    var form := new Form(false);
    var element := new Element(Str(""));
    MergeErrorsNoRules(map[], Str(""));
    RegisterThenValidate(form, "dummy_field", map[], element);
    calls := |form.ruleCalls|;
    entry := form.errors["dummy_field"];
  }

  /** Registering a field and validating it again invokes each of its rules exactly twice. */
  method CallsEachRuleTwiceScenario() returns (ghost required: nat, ghost length: nat)
    ensures required == 2 && length == 2
  {
    var form := new Form(false);
    var element := new Element(Str(""));
    var rules := map["isRequired" := IsRequired, "hasLength" := HasLength];
    RegisterThenValidate(form, "dummy_field", rules, element);
    CallsCount("dummy_field", rules.Keys, ("dummy_field", "isRequired"));
    CallsCount("dummy_field", rules.Keys, ("dummy_field", "hasLength"));
    required := form.ruleCalls[("dummy_field", "isRequired")];
    length := form.ruleCalls[("dummy_field", "hasLength")];
  }

  /** Two passes over a field's rules invoke each of those rules exactly twice. */
  lemma TwoPassesCallEachRuleTwice(name: string, ruleNames: set<string>, rn: string)
    requires rn in ruleNames
    ensures (Calls(name, ruleNames) + Calls(name, ruleNames))[(name, rn)] == 2
  {
    CallsCount(name, ruleNames, (name, rn));
  }

  /**
   * Registering and validating a field with an empty value runs `isRequired`
   * and `hasMaxLength` twice each and records only the failing rule's message.
   */
  method OnlyFailedMessagesScenario()
    returns (entry: map<string, string>, ghost required: nat, ghost maxLength: nat)
    ensures entry == map["isRequired" := "required"]
    ensures "maxLength" !in entry
    ensures required == 2 && maxLength == 2
  {
    var rules := map["isRequired" := IsRequired, "maxLength" := HasMaxLength];
    EmptyValueFailsOnlyRequired(rules);
    var form := new Form(false);
    var element := new Element(Str(""));
    RegisterThenValidate(form, "dummy_field", rules, element);
    entry := form.errors["dummy_field"];
    TwoPassesCallEachRuleTwice("dummy_field", rules.Keys, "isRequired");
    TwoPassesCallEachRuleTwice("dummy_field", rules.Keys, "maxLength");
    required := form.ruleCalls[("dummy_field", "isRequired")];
    maxLength := form.ruleCalls[("dummy_field", "maxLength")];
  }

  /**
   * With an empty value only the failing rule's message is recorded, after
   * two invocations of each rule; once the value is fixed, validating again
   * removes that obsolete message.
   */
  method ObsoleteErrorScenario()
    returns (failing: map<string, string>, fixed: map<string, string>, ghost required: nat, ghost maxLength: nat)
    ensures failing == map["isRequired" := "required"]
    ensures required == 2 && maxLength == 2
    ensures fixed == map[]
  {
    var rules := map["isRequired" := IsRequired, "maxLength" := HasMaxLength];
    EmptyValueFailsOnlyRequired(rules);
    FixedValueClearsRequired(rules);
    var form := new Form(false);
    var element := new Element(Str(""));
    RegisterThenValidate(form, "dummy_field", rules, element);
    failing := form.errors["dummy_field"];
    TwoPassesCallEachRuleTwice("dummy_field", rules.Keys, "isRequired");
    TwoPassesCallEachRuleTwice("dummy_field", rules.Keys, "maxLength");
    required := form.ruleCalls[("dummy_field", "isRequired")];
    maxLength := form.ruleCalls[("dummy_field", "maxLength")];
    element.value := Str("abcd");
    assert form.refs["dummy_field"].element.value == Str("abcd");
    form.ValidateField("dummy_field");
    fixed := form.errors["dummy_field"];
  }

  /** A field with a single rule keeps that rule's message alone, if it fails. */
  lemma OneRuleOutcome(prev: map<string, string>, k: string, f: Rule, v: FieldValue)
    requires prev.Keys <= {k}
    ensures MergeErrors(prev, map[k := f], v) == if f(v) != "" then map[k := f(v)] else map[]
  {
    var r := MergeErrors(prev, map[k := f], v);
    if f(v) != "" {
      assert r.Keys == {k};
    } else {
      assert r.Keys == {};
    }
  }

  /** A field with two rules, the second of which passes, keeps the first rule's message alone, if it fails. */
  lemma TwoRulesOutcome(prev: map<string, string>, k1: string, f1: Rule, k2: string, f2: Rule, v: FieldValue)
    requires k1 != k2 && prev.Keys <= {k1, k2} && f2(v) == ""
    ensures MergeErrors(prev, map[k1 := f1, k2 := f2], v) == if f1(v) != "" then map[k1 := f1(v)] else map[]
  {
    var r := MergeErrors(prev, map[k1 := f1, k2 := f2], v);
    if f1(v) != "" {
      assert r.Keys == {k1};
    } else {
      assert r.Keys == {};
    }
  }

  /** The rule names of the suite are distinct. */
  lemma RuleNamesDistinct()
    ensures "isRequired" != "maxLength"
  {
    assert |"maxLength"| == 9 && |"isRequired"| == 10;
  }

  lemma EmptyValueLength()
    ensures TrimmedText(Str("")) == 0
  {
    TrimOfTrimmed("");
  }

  lemma EmptyValueFailsRequired()
    ensures IsRequired(Str("")) == "required" && HasMaxLength(Str("")) == ""
  {
    EmptyValueLength();
  }

  /** On an empty value the lone `isRequired` rule records its message. */
  lemma EmptyValueFailsLoneRequired(rules: map<string, Rule>)
    requires rules == map["isRequired" := IsRequired]
    ensures MergeErrors(map[], rules, Str("")) == map["isRequired" := "required"]
  {
    EmptyValueFailsRequired();
    OneRuleOutcome(map[], "isRequired", IsRequired, Str(""));
  }

  /** With `hasMaxLength` beside it, only the message of `isRequired` is recorded. */
  lemma EmptyValueFailsOnlyRequired(rules: map<string, Rule>)
    requires rules == map["isRequired" := IsRequired, "maxLength" := HasMaxLength]
    ensures MergeErrors(map[], rules, Str("")) == map["isRequired" := "required"]
  {
    EmptyValueFailsRequired();
    RuleNamesDistinct();
    TwoRulesOutcome(map[], "isRequired", IsRequired, "maxLength", HasMaxLength, Str(""));
  }

  lemma FixedValueLength()
    ensures TrimmedText(Str("abcd")) == 4
  {
    TrimmedTextOfWord("abcd");
  }

  lemma FixedValuePassesBoth()
    ensures IsRequired(Str("abcd")) == "" && HasMaxLength(Str("abcd")) == ""
  {
    FixedValueLength();
  }

  /** Once the value is `"abcd"` the earlier `isRequired` message is dropped. */
  lemma FixedValueClearsRequired(rules: map<string, Rule>)
    requires rules == map["isRequired" := IsRequired, "maxLength" := HasMaxLength]
    ensures MergeErrors(map["isRequired" := "required"], rules, Str("abcd")) == map[]
  {
    FixedValuePassesBoth();
    RuleNamesDistinct();
    TwoRulesOutcome(map["isRequired" := "required"], "isRequired", IsRequired, "maxLength", HasMaxLength, Str("abcd"));
  }

  /** Validating a registered field creates its entry in the errors, even when every rule passes. */
  method ErrorsEntryCreatedScenario() returns (before: bool, after: bool, entry: map<string, string>)
    ensures !before && after
    ensures entry == map[]
  {
    var rules := map["isRequired" := IsRequired];
    NoErrorForDummyValue(rules);
    var form := new Form(false);
    var element := new Element(Str("dummy_value"));
    before := "dummy_field" in form.errors;
    RegisterThenValidate(form, "dummy_field", rules, element);
    after := "dummy_field" in form.errors;
    entry := form.errors["dummy_field"];
  }

  lemma DummyValueLength()
    ensures TrimmedText(Str("dummy_value")) == 11
  {
    TrimmedTextOfWord("dummy_value");
  }

  lemma DummyValuePassesRequired()
    ensures IsRequired(Str("dummy_value")) == ""
  {
    DummyValueLength();
  }

  lemma NoErrorForDummyValue(rules: map<string, Rule>)
    requires rules == map["isRequired" := IsRequired]
    ensures MergeErrors(map[], rules, Str("dummy_value")) == map[]
  {
    DummyValuePassesRequired();
    OneRuleOutcome(map[], "isRequired", IsRequired, Str("dummy_value"));
  }
}

=== FILE: wrappers.dfy ===
/** Failure-carrying datatypes shared by the validator and the form controller. */
module Wrappers {

  /** `None` stands for JavaScript's `undefined` result. */
  datatype Option<+T> = None | Some(value: T)

  /** `Err` stands for an exception thrown synchronously by the call. */
  datatype Result<+T, +E> = Ok(value: T) | Err(error: E)
}
